=== FILE: README.md ===
# Acorn ESP32-S3 display controller, modelled in Dafny

This project models the display layer of the Acorn ESP32-S3 board of the
xiaozhi voice assistant. It has three parts:

- **Display controller** (`AcornDisplayController`). It holds a table from
  ten display states (`DeviceDisplayState`) to display configurations. On top
  of that table sit four override strings: status icon, animation, bottom
  text and bottom icon. It also has two single-shot timers.
- **Display surface** (`AcornDisplay`). It has three screen regions: a status
  icon, a centre animation, and a bottom area that holds either an image or a
  label.
- **Asset registry** (`AcornAssets`). It maps names to animation and icon
  handles.

Every operation is a pure function from one controller value to the next.
The surface and the registry are part of that value. A `const char*` argument
is an `Option<string>`, where `None` is the null pointer. An override is a
string, and the empty string means "no override". A timer is `Disarmed` or
`Armed(durationMs)`. A timer firing is an explicit step, `FireTimeout` or
`FireOverlay`, and it can only happen while that timer is armed. The random
animation choice is a `pick: nat` parameter, and the index used is
`pick % |candidates|`, so every candidate can be chosen.

Files:

- `cstrings.dfy`: nullable pointer arguments and the `std::string` to `const char*` conversion.
- `acorn_assets.dfy`: the registry.
- `acorn_display.dfy`: the surface.
- `display_controller.dfy`: the controller, its tables, the region setters,
  state changes, overlays and timer callbacks.
- `controller_properties.dfy`: lemmas that relate several calls.
- `controller_runs.dfy`: arbitrary sequences of calls and timer firings, with
  invariants proved by induction.

## Behaviour as written

The model follows the code, including these consequences:

- `SetDeviceState` returns immediately when asked for the current state. Both
  the constructor's request for IDLE and `ForceIdle` while idle are therefore
  no-ops. After the board starts up, no animation source has ever been set
  (`Startup`).
- `SetDeviceState` stops the timeout timer but never starts one. The
  `auto_return_to_idle` and `timeout_ms` table fields are never read. No state
  returns to IDLE on its own (`ThinkingNeverReturnsToIdle`).
- Applying a configuration sends every non-empty resolved value through the
  region setters, and each setter records its value as an override. Overrides
  therefore persist across later state changes. For example, LISTENING's icon
  and text stay on screen after a return to IDLE (`ListeningLeaksIntoIdle`).
- The gif override is recorded but never consulted when content is resolved.
- Both timer callbacks end by asking for the current state, which is a no-op.
  The overlay callback leaves the gif override in place.
- The header promises that the screen returns to what it was before
  `ShowTemporary`. The state itself never changes, but its screen is never
  restored. `previous_state_` is written but never read, and the timeout
  callback only blanks the status and bottom areas and drops the overrides.
  The temporary animation stays on screen and the state's configuration is not
  applied again (`TemporaryIsNeverUndone`, `TimeoutIgnoresPrevious`).
- When the resolved bottom icon is not a registered icon, applying a
  configuration records it as the icon override and drops the text override,
  but the screen keeps the label with the resolved text. The text goes on
  screen first, and the unregistered icon then changes nothing on screen.
- `SetCustomDisplay` is documented as leaving a region unchanged when its
  argument is null (acorn_display_controller.cc:415). That promise fails
  whenever an animation is given, because `SetGifAnimation` first clears the
  whole screen (acorn_display_controller.cc:330). A null status icon then
  leaves the status area hidden, and null bottom arguments leave the bottom
  area blank. The same holds for `ShowTemporary`.
- `SetCustomDisplay` applies the bottom icon after the bottom text, so the icon
  wins. `ShowTemporary` applies them in the opposite order, so the text wins.

## Model

| member | source | states |
|---|---|---|
| AcornAssets.InitializeAssets | main/boards/acorn-esp32s3-full/acorn_assets.cc:16-52 | after initialisation every animation and icon name is a key whose handle is that name's descriptor, and every other key is kept unchanged |
| AcornAssets.RegisteredNameCounts | main/boards/acorn-esp32s3-full/acorn_assets.cc:18-51 | exactly 18 distinct animation names and 14 distinct icon names are registered |
| AcornAssets.GifLookupIff | main/boards/acorn-esp32s3-full/acorn_assets.cc:18-58 | after initialisation an animation lookup yields a handle exactly when the name is one of the 18 registered names, and the handle is that name's |
| AcornAssets.IconLookupIff | main/boards/acorn-esp32s3-full/acorn_assets.cc:38-63 | after initialisation an icon lookup yields a handle exactly when the name is one of the 14 registered names, and the handle is that name's |
| AcornAssets.LookupBeforeInitialize | main/boards/acorn-esp32s3-full/acorn_assets.cc:12-13 | before initialisation both maps are empty, so every animation and icon lookup misses |
| AcornAssets.InitializeIdempotent | main/boards/acorn-esp32s3-full/acorn_assets.cc:16-52 | running the initialisation a second time leaves the registry unchanged |
| AcornAssets.GetGif | main/boards/acorn-esp32s3-full/acorn_assets.cc:55-58 | the lookup yields a handle exactly when the name is a key of the animation map, and then it is that key's handle |
| AcornAssets.GetIcon | main/boards/acorn-esp32s3-full/acorn_assets.cc:60-63 | the lookup yields a handle exactly when the name is a key of the icon map, and then it is that key's handle |
| AcornDisplay.Layout | main/boards/acorn-esp32s3-full/acorn_display.cc:18-53 | the freshly built layout hides the status icon, the bottom image and the bottom label, and the centre animation has no source yet |
| AcornDisplay.SetStatusIcon | main/boards/acorn-esp32s3-full/acorn_display.cc:55-72 | the status icon is visible afterwards iff a registered name was given, and then it shows that icon; no other region changes |
| AcornDisplay.SetCenterGif | main/boards/acorn-esp32s3-full/acorn_display.cc:74-86 | a registered name becomes the centre animation; a null or unregistered name leaves the whole surface unchanged |
| AcornDisplay.SetBottomContent | main/boards/acorn-esp32s3-full/acorn_display.cc:88-105 | a registered icon shows the image and hides the label; null hides both; an unregistered name changes nothing; if image and label were not both visible before, they are not both visible afterwards |
| AcornDisplay.SetBottomText | main/boards/acorn-esp32s3-full/acorn_display.cc:107-119 | non-null text shows the label with that text and hides the image; null hides both; the status icon and the animation are untouched |
| AcornDisplay.ClearStatusIcon | main/boards/acorn-esp32s3-full/acorn_display.cc:121-124 | only the status icon's visibility changes, to hidden |
| AcornDisplay.ClearBottomContent | main/boards/acorn-esp32s3-full/acorn_display.cc:126-130 | only the bottom widgets' visibility changes, to hidden |
| AcornDisplay.ClearAll | main/boards/acorn-esp32s3-full/acorn_display.cc:132-135 | the status icon and both bottom widgets end hidden and the centre animation is untouched |
| DisplayController.StateTable | main/boards/acorn-esp32s3-full/acorn_display_controller.cc:57-165 | the table's keys are exactly the ten display states, every display state has an entry, and each entry is the configuration its state is given |
| DisplayController.ConfigFor | main/boards/acorn-esp32s3-full/acorn_display_controller.cc:59-164 | each of the ten configurations offers at least one animation and names only non-empty, registered animations and icons and non-empty texts |
| DisplayController.EmotionMapping | main/boards/acorn-esp32s3-full/acorn_display_controller.cc:167-179 | ten distinct emotion names are registered |
| DisplayController.EmotionName | main/boards/acorn-esp32s3-full/acorn_display_controller.cc:167-179 | every display state's emotion name is registered and maps back to that state |
| DisplayController.DeviceStateMapping | main/boards/acorn-esp32s3-full/acorn_display_controller.cc:182-195 | exactly the ten named application states are mapped, and each goes to IDLE, LISTENING, SPEAKING, WIFI_CONNECTING or ERROR |
| DisplayController.GetCurrentGif | main/boards/acorn-esp32s3-full/acorn_display_controller.cc:275-288 | an empty candidate list gives the empty name; without random selection, or with one candidate, the first candidate is used; otherwise some candidate is used |
| DisplayController.Resolve | main/boards/acorn-esp32s3-full/acorn_display_controller.cc:290-309 | a non-empty override wins over the configured value; otherwise the configured value is used, or the empty name when it is null; the result is empty iff both are absent |
| DisplayController.CurrentStatusIcon | main/boards/acorn-esp32s3-full/acorn_display_controller.cc:290-295 | a status override wins; without one the configured icon, or the empty string when it is null |
| DisplayController.CurrentBottomText | main/boards/acorn-esp32s3-full/acorn_display_controller.cc:297-302 | a bottom-text override wins; without one the configured text, or the empty string when it is null |
| DisplayController.CurrentBottomIcon | main/boards/acorn-esp32s3-full/acorn_display_controller.cc:304-309 | a bottom-icon override wins; without one the configured icon, or the empty string when it is null |
| DisplayController.ClearStatusIcon | main/boards/acorn-esp32s3-full/acorn_display_controller.cc:363-366 | the status override is dropped and the status icon hidden; nothing else changes |
| DisplayController.ClearBottomArea | main/boards/acorn-esp32s3-full/acorn_display_controller.cc:368-372 | both bottom overrides are dropped and both bottom widgets hidden; nothing else changes |
| DisplayController.ClearAll | main/boards/acorn-esp32s3-full/acorn_display_controller.cc:374-380 | all four overrides are dropped, status and bottom are hidden, and the animation keeps playing |
| DisplayController.SetStatusIcon | main/boards/acorn-esp32s3-full/acorn_display_controller.cc:312-320 | a non-null name becomes the status override and is shown iff registered; null clears the override and hides the icon |
| DisplayController.SetGifAnimation | main/boards/acorn-esp32s3-full/acorn_display_controller.cc:322-335 | the status and bottom regions are always hidden first; a non-null name becomes the gif override and, if registered, the animation; null leaves every override alone |
| DisplayController.SetBottomText | main/boards/acorn-esp32s3-full/acorn_display_controller.cc:337-349 | non-null text becomes the text override and drops the icon override, and the label shows it; null clears both overrides and the bottom area |
| DisplayController.SetBottomIcon | main/boards/acorn-esp32s3-full/acorn_display_controller.cc:351-360 | a non-null name becomes the icon override and drops the text override; a registered icon is shown in the image and the label is hidden, an unregistered one leaves the screen unchanged; null clears both |
| DisplayController.SetCustomDisplay | main/boards/acorn-esp32s3-full/acorn_display_controller.cc:413-431 | each non-null argument becomes its region's override; a registered animation, status icon or bottom icon is what is shown in its region, and non-null text is shown in the label unless a registered icon follows it; a null argument leaves that override alone; with both bottom arguments the icon override wins; without an animation, a region whose arguments are null keeps what it showed, but with an animation and a null status icon the status area is hidden |
| CStrings.NonEmpty | main/boards/acorn-esp32s3-full/acorn_display_controller.cc:263-266 | a string becomes the null pointer exactly when it is empty, and otherwise points at that string |
| DisplayController.ApplyDisplayConfig | main/boards/acorn-esp32s3-full/acorn_display_controller.cc:254-273 | every resolved value is written back as an override (the icon beats the text), with empty values passed on as null; the status icon is shown iff the resolved status is non-empty and registered; a registered resolved animation and icon are what is shown; a resolved text with no resolved icon, or with an unregistered one, is what the label shows |
| DisplayController.SetDeviceState | main/boards/acorn-esp32s3-full/acorn_display_controller.cc:198-226 | asking for the current state changes nothing; otherwise the old state becomes the previous one, the new state is current, the timeout timer is stopped, and the overlay timer is untouched |
| DisplayController.SetAppState | main/boards/acorn-esp32s3-full/acorn_display_controller.cc:229-237 | a mapped application state requests its display state; an unmapped one requests IDLE |
| DisplayController.SetEmotion | main/boards/acorn-esp32s3-full/acorn_display_controller.cc:239-252 | a known emotion name requests its display state; a null or unknown name requests IDLE |
| DisplayController.ForceIdle | main/boards/acorn-esp32s3-full/acorn_display_controller.cc:433-435 | the state ends as IDLE, and when already IDLE nothing changes |
| DisplayController.ShowTemporary | main/boards/acorn-esp32s3-full/acorn_display_controller.cc:383-410 | the current state is kept and recorded as the previous one; each non-null region becomes an override, with the text winning over the icon, and a null argument leaves its override alone; a registered animation goes on screen and the status icon shows, with its descriptor, iff it is registered; text is shown in the label, else a registered bottom icon in the image; without an animation, a region whose arguments are null keeps what it showed, while an animation with a null status icon hides the status area and an animation alone blanks the status and bottom areas; the timeout timer starts only for a positive timeout |
| DisplayController.SetStatusOverlay | main/boards/acorn-esp32s3-full/acorn_display_controller.cc:438-446 | a null name changes nothing; otherwise it becomes the status override and is shown iff registered, the gif and bottom overrides are kept, the animation and the bottom area on screen are untouched, and the overlay timer starts only for a positive duration |
| DisplayController.SetBottomOverlay | main/boards/acorn-esp32s3-full/acorn_display_controller.cc:448-457 | a null text changes nothing; otherwise it becomes the text override and drops the icon override, the label shows it and the image is hidden, the status icon and animation are untouched, and the overlay timer starts only for a positive duration |
| DisplayController.FireTimeout | main/boards/acorn-esp32s3-full/acorn_display_controller.cc:479-486 | the timeout callback keeps the current and previous state, drops all four overrides, hides status and bottom, and stops only its own timer |
| DisplayController.FireOverlay | main/boards/acorn-esp32s3-full/acorn_display_controller.cc:488-495 | the overlay callback keeps the state, drops the status and bottom overrides but keeps the gif override, and stops only its own timer |
| DisplayController.Construct | main/boards/acorn-esp32s3-full/acorn_display_controller.cc:9-43 | the new controller is IDLE with IDLE as its previous state, has both timers stopped and no overrides, and leaves the display as it was handed over |
| ControllerProperties.TenDisplayStates | main/boards/acorn-esp32s3-full/acorn_display_controller.h:12-16 | there are exactly ten distinct display states |
| ControllerProperties.TableConfigsRegistered | main/boards/acorn-esp32s3-full/acorn_display_controller.cc:59-164 | every table entry has at least one animation, and every name and text it gives is non-empty and, for assets, registered |
| ControllerProperties.EmotionMappingBijective | main/boards/acorn-esp32s3-full/acorn_display_controller.cc:167-179 | the ten emotion names and the ten display states correspond one to one |
| ControllerProperties.AppStatesReachFiveStates | main/boards/acorn-esp32s3-full/acorn_display_controller.cc:182-195 | an application state only ever leads to IDLE, LISTENING, SPEAKING, WIFI_CONNECTING or ERROR, and an unmapped one requests IDLE |
| ControllerProperties.FallbackUnreachable | main/boards/acorn-esp32s3-full/acorn_display_controller.cc:214-225 | for a controller built by the constructor, the IDLE fallback is never taken: a state change applies that state's own entry |
| ControllerProperties.TimeoutFieldsUnread | main/boards/acorn-esp32s3-full/acorn_display_controller.cc:254-273 | applying a configuration does not depend on its auto-return flag or its timeout |
| ControllerProperties.SetDeviceStateNeverArms | main/boards/acorn-esp32s3-full/acorn_display_controller.cc:198-226 | a state request never starts either timer |
| ControllerProperties.RandomGifReachesEvery | main/boards/acorn-esp32s3-full/acorn_display_controller.cc:280-285 | with random selection over several candidates, every candidate can be the one chosen |
| ControllerProperties.OverridesAreSticky | main/boards/acorn-esp32s3-full/acorn_display_controller.cc:254-273 | status and icon overrides survive a state change, and so does a text override when the new state has no bottom icon |
| ControllerProperties.TableFillsFreeOverrides | main/boards/acorn-esp32s3-full/acorn_display_controller.cc:254-273 | a status or icon override left empty after a state change holds the new state's configured value |
| ControllerProperties.ErrorIconBeatsText | main/boards/acorn-esp32s3-full/acorn_display_controller.cc:156-164 | entering ERROR always leaves an icon override and no text override; without an earlier icon override, the bind_error icon is the image on screen and the label is hidden |
| ControllerProperties.EmptyStatusClears | main/boards/acorn-esp32s3-full/acorn_display_controller.cc:269-272 | entering a state with no status icon and no status override hides the status icon and leaves no status override |
| ControllerProperties.DefaultArguments | main/boards/acorn-esp32s3-full/acorn_display_controller.h:44-66 | the overlays' default duration starts no timer; ShowTemporary's default starts the timeout timer for 3000 ms |
| ControllerProperties.BottomSettersExclusive | main/boards/acorn-esp32s3-full/acorn_display_controller.cc:337-372 | for any bottom text and icon, including empty ones, the later bottom setter decides which bottom override remains, and a null argument or ClearBottomArea leaves neither |
| ControllerProperties.QueriesFollowSetters | main/boards/acorn-esp32s3-full/acorn_display_controller.h:75-77 | the override queries report what the setters recorded, and no setter changes the reported state |
| ControllerProperties.Startup | main/boards/acorn-esp32s3-full/acorn_esp32s3_full_board.cc:256-257 | after the board constructs the controller and forces IDLE, everything is hidden, no animation source is set, there are no overrides and no timer is running |
| ControllerProperties.ConstructValid | main/boards/acorn-esp32s3-full/acorn_display_controller.cc:9-43 | construction yields a controller satisfying the invariant, whether or not the assets were already initialised |
| ControllerProperties.CleanApplyShowsConfig | main/boards/acorn-esp32s3-full/acorn_display_controller.cc:254-273 | with no status or bottom override, applying a registered configuration shows exactly its status icon, animation, and bottom icon or text |
| ControllerProperties.CleanEntryShowsConfig | main/boards/acorn-esp32s3-full/acorn_display_controller.cc:198-226 | with no status or bottom override, entering a state shows exactly that state's table entry: its status icon, animation, and bottom icon or text |
| ControllerProperties.StatusOverrideShown | main/boards/acorn-esp32s3-full/acorn_display_controller.cc:290-295 | a registered status override is the status icon any configuration shows |
| ControllerProperties.TextOverrideShown | main/boards/acorn-esp32s3-full/acorn_display_controller.cc:297-302 | a text override is the bottom text shown whenever no bottom icon is resolved |
| ControllerProperties.OverridesStayOnScreen | main/boards/acorn-esp32s3-full/acorn_display_controller.cc:254-309 | across a state change, a registered status override stays on screen, and a text override does too unless the new state has a bottom icon |
| ControllerProperties.ListeningScenario | main/boards/acorn-esp32s3-full/acorn_display_controller.cc:239-252 | after start-up, the emotion "listening" shows the volume icon, the listening text and the first listening animation, and starts no timer |
| ControllerProperties.ListeningLeaksIntoIdle | main/boards/acorn-esp32s3-full/acorn_display_controller.cc:59-78 | going IDLE, then LISTENING, then IDLE leaves LISTENING's icon and text on screen as overrides |
| ControllerProperties.StatusOverlayOutlivesIdle | main/boards/acorn-esp32s3-full/acorn_display_controller.cc:438-446 | a status overlay with no duration stays shown, starts no timer, and survives every request for IDLE |
| ControllerProperties.TemporaryIsNeverUndone | main/boards/acorn-esp32s3-full/acorn_display_controller.cc:383-410 | when a temporary screen's timeout fires, the state is the one it was shown in, every override is gone, status and bottom are blank and the temporary animation stays: the earlier state is not restored |
| ControllerProperties.TimeoutIgnoresPrevious | main/boards/acorn-esp32s3-full/acorn_display_controller.cc:479-486 | the timeout callback's result does not depend on the previous state |
| ControllerRuns.StepPreservesValid | main/boards/acorn-esp32s3-full/acorn_display_controller.cc:337-372 | every call and timer firing keeps the invariant: tables and assets as built, bottom overrides exclusive, and bottom image and label never both visible |
| ControllerRuns.RunPreservesValid | main/boards/acorn-esp32s3-full/acorn_display.cc:88-130 | any sequence of calls and firings keeps the invariant |
| ControllerRuns.FiringKeepsState | main/boards/acorn-esp32s3-full/acorn_display_controller.cc:479-495 | a timer firing never changes the current or previous state |
| ControllerRuns.FiringsKeepState | main/boards/acorn-esp32s3-full/acorn_display_controller.cc:479-495 | any number of timer firings leave the current and previous state unchanged |
| ControllerRuns.OnlyExplicitCallsArm | main/boards/acorn-esp32s3-full/acorn_display_controller.cc:383-457 | only ShowTemporary starts the timeout timer, and only the two overlay calls start the overlay timer |
| ControllerRuns.NoArmingWithoutExplicitCalls | main/boards/acorn-esp32s3-full/acorn_display_controller.cc:383-457 | without those calls, a stopped timer stays stopped for a whole run |
| ControllerRuns.ThinkingNeverReturnsToIdle | main/boards/acorn-esp32s3-full/acorn_display_controller.cc:80-89 | after entering THINKING, whose entry asks for a return to IDLE after 10 s, timer firings alone never leave THINKING |

## Left out

- DisplayController.ShowTemporary: arming a timer that is already running simply replaces its duration. In ESP-IDF, `esp_timer_start_once` on a running timer fails and the old deadline stays. The model only records armed or stopped.
- DisplayController.SetStatusOverlay: the same simplification of re-arming applies.
- DisplayController.SetBottomOverlay: the same simplification of re-arming applies.
- Durations are unbounded integers. `ShowTemporary`'s `timeout_ms * 1000` and the overlays' `duration_ms * 1000` are 32-bit `int` products, which overflow above 2147483 ms. That overflow is not modelled.
- Timer creation failure is not modelled. The destructor, which stops and deletes both timers, is left out because no controller value remains after it runs.
- Concurrency between the timer task and callers, and the display lock, are left out. Each call and each callback is one atomic step.
- The `std::mt19937` generator is replaced by the `pick` parameter.
- Logging is left out.
- LVGL widget creation, alignment, styling and rendering are left out. Only visibility flags and current sources are kept.
- The board file beyond constructing the controller and calling `ForceIdle` is left out. That includes SPI, the LCD panel, camera, power, backlight, buttons and IoT setup.
- `gif_controller.h` is left out because the board does not use it.
- `UpdateDisplay` is declared but never defined, so it has no model.
- The display calls `AcornAssets::GetStatusIcon` and `GetBottomIcon`, which the header declares but the registry never defines. Both are modelled as the icon lookup `GetIcon`.
- `device_state.h` is not part of this model. `DeviceState` names the ten application states the mapping mentions, and `OtherDeviceState` stands for every other value.
- A null `AcornDisplay*` handed to the controller is not modelled. Neither is a null name passed straight to a registry lookup, which no caller does.
- `GetCurrentState` and the `Has*Override` queries are pure projections with no contract of their own. `QueriesFollowSetters` states their behaviour.
- Asset lookups are pure because they are functions. No lemma states purity separately.

=== FILE: acorn_assets.dfy ===
/** The asset registry of the Acorn board: two name-to-handle maps, one for
    animations and one for icons, filled once by `InitializeAssets`. A lookup
    of a name that is not registered yields no handle (the C++ null pointer). */
module AcornAssets {
  import opened CStrings

  /** The address of a compiled-in image descriptor, identified by its symbol. */
  datatype Handle = Descriptor(symbol: string)

  /** The registry's two maps (`gif_map` and `icon_map`). */
  datatype Registry = Registry(gifMap: map<string, Handle>, iconMap: map<string, Handle>)

  /** The animation names `InitializeAssets` registers, in registration order. */
  const GifNames: seq<string> := [
    "idle_1", "idle_2", "idle_blink", "sleep_loop",
    "listen_start", "listen_loop", "listen_end",
    "talk_start", "talk_loop", "talk_end",
    "touch_start", "touch_loop", "touch_end",
    "lowbat_start", "lowbat_loop", "lowbat_end",
    "switch_on", "switch_off"
  ]

  /** The icon names `InitializeAssets` registers, in registration order. */
  const IconNames: seq<string> := [
    "battery_full", "battery_low",
    "volume_high", "volume_low", "volume_mute",
    "wifi_connected", "wifi_not_connected", "wifi_error",
    "cellular_connected", "cellular_not_connected", "cellular_connected_error",
    "bind_success", "bind_error", "network_loading"
  ]

  /** No two entries of `names` are equal. */
  predicate Distinct(names: seq<string>) {
    forall i, j :: 0 <= i < j < |names| ==> names[i] != names[j]
  }

  /** The registry before `InitializeAssets` has run: both maps empty. */
  function Uninitialized(): Registry {
    Registry(map[], map[])
  }

  /** Each registered name maps to the descriptor of the same symbol. */
  function TableOf(names: seq<string>): (m: map<string, Handle>)
    ensures m.Keys == set n | n in names
    ensures forall n :: n in m ==> m[n] == Descriptor(n)
  {
    map n | n in names :: Descriptor(n)
  }

  /** Assigns every animation and icon name its handle. Names already present
      under another key are kept; a registered name is overwritten with the
      same handle it would get anyway. */
  function InitializeAssets(r: Registry): (r': Registry)
    ensures r'.gifMap.Keys == r.gifMap.Keys + set n | n in GifNames
    ensures r'.iconMap.Keys == r.iconMap.Keys + set n | n in IconNames
    ensures forall n :: n in GifNames ==> r'.gifMap[n] == Descriptor(n)
    ensures forall n :: n in IconNames ==> r'.iconMap[n] == Descriptor(n)
    ensures forall n :: n in r.gifMap && n !in GifNames ==> r'.gifMap[n] == r.gifMap[n]
    ensures forall n :: n in r.iconMap && n !in IconNames ==> r'.iconMap[n] == r.iconMap[n]
  {
    Registry(r.gifMap + TableOf(GifNames), r.iconMap + TableOf(IconNames))
  }

  /** The registry as it stands once the controller's constructor has run. */
  function Initialized(): Registry {
    InitializeAssets(Uninitialized())
  }

  /** `GetGif`: the handle registered under `name`, if any. */
  function GetGif(r: Registry, name: string): (h: Option<Handle>)
    ensures h.Some? <==> name in r.gifMap
    ensures h.Some? ==> h.value == r.gifMap[name]
  {
    if name in r.gifMap then Some(r.gifMap[name]) else None
  }

  /** `GetIcon`: the handle registered under `name`, if any. The display also
      calls this lookup under the names `GetStatusIcon` and `GetBottomIcon`. */
  function GetIcon(r: Registry, name: string): (h: Option<Handle>)
    ensures h.Some? <==> name in r.iconMap
    ensures h.Some? ==> h.value == r.iconMap[name]
  {
    if name in r.iconMap then Some(r.iconMap[name]) else None
  }

  /** Exactly eighteen distinct animation names and fourteen distinct icon names are registered. */
  lemma RegisteredNameCounts()
    ensures |GifNames| == 18 && Distinct(GifNames)
    ensures |IconNames| == 14 && Distinct(IconNames)
  {
  }

  /** After initialisation an animation lookup succeeds exactly for the registered
      names, and yields the descriptor of that name. */
  lemma GifLookupIff(name: string)
    ensures GetGif(Initialized(), name).Some? <==> name in GifNames
    ensures GetGif(Initialized(), name).Some? ==> GetGif(Initialized(), name).value == Descriptor(name)
  {
  }

  /** After initialisation an icon lookup succeeds exactly for the registered
      names, and yields the descriptor of that name. */
  lemma IconLookupIff(name: string)
    ensures GetIcon(Initialized(), name).Some? <==> name in IconNames
    ensures GetIcon(Initialized(), name).Some? ==> GetIcon(Initialized(), name).value == Descriptor(name)
  {
  }

  /** Before initialisation every lookup misses. */
  lemma LookupBeforeInitialize(name: string)
    ensures GetGif(Uninitialized(), name) == None
    ensures GetIcon(Uninitialized(), name) == None
  {
  }

  /** Running `InitializeAssets` again changes nothing. */
  lemma InitializeIdempotent(r: Registry)
    ensures InitializeAssets(InitializeAssets(r)) == InitializeAssets(r)
  {
    var once := InitializeAssets(r);
    var twice := InitializeAssets(once);
    assert twice.gifMap == once.gifMap;
    assert twice.iconMap == once.iconMap;
  }
}

=== FILE: acorn_display.dfy ===
/** The Acorn display surface: three screen regions, reduced to what decides
    what is visible. The status icon and the bottom image and label each have
    a visible flag and a source; the centre animation is always on screen and
    only its source changes. Every call looks names up in the asset registry. */
module AcornDisplay {
  import opened CStrings
  import opened AcornAssets

  /** Visible flags and current sources of the widgets. A source of `None` is
      the widget's state before any source was ever set. */
  datatype Surface = Surface(
    statusSrc: Option<Handle>, statusShown: bool,
    gifSrc: Option<Handle>,
    imageSrc: Option<Handle>, imageShown: bool,
    labelText: Option<string>, labelShown: bool)

  /** The bottom image and the bottom label are never both visible. */
  predicate BottomExclusive(s: Surface) {
    !(s.imageShown && s.labelShown)
  }

  /** The status icon and the whole bottom area are hidden. */
  predicate AllHidden(s: Surface) {
    !s.statusShown && !s.imageShown && !s.labelShown
  }

  /** The layout built by the constructor: the status icon and both bottom
      widgets are created hidden, the centre animation without a source. */
  function Layout(): (s: Surface)
    ensures AllHidden(s)
    ensures s.gifSrc.None?
    ensures BottomExclusive(s)
  {
    Surface(None, false, None, None, false, None, false)
  }

  /** Hides the status icon and touches nothing else. */
  function ClearStatusIcon(s: Surface): (r: Surface)
    ensures !r.statusShown
    ensures r.(statusShown := s.statusShown) == s
  {
    s.(statusShown := false)
  }

  /** Hides both bottom widgets and touches nothing else. */
  function ClearBottomContent(s: Surface): (r: Surface)
    ensures !r.imageShown && !r.labelShown
    ensures BottomExclusive(r)
    ensures r.(imageShown := s.imageShown, labelShown := s.labelShown) == s
  {
    s.(imageShown := false, labelShown := false)
  }

  /** Hides the status icon and the bottom area; the centre animation is left alone. */
  function ClearAll(s: Surface): (r: Surface)
    ensures AllHidden(r)
    ensures BottomExclusive(r)
    ensures r.gifSrc == s.gifSrc
    ensures r.(statusShown := s.statusShown, imageShown := s.imageShown, labelShown := s.labelShown) == s
  {
    ClearBottomContent(ClearStatusIcon(s))
  }

  /** Shows the named status icon if it is registered; a null or unregistered
      name hides the status icon instead. Only the status region changes. */
  function SetStatusIcon(s: Surface, reg: Registry, name: CStr): (r: Surface)
    ensures r.statusShown <==> name.Some? && name.value in reg.iconMap
    ensures r.statusShown ==> r.statusSrc == Some(reg.iconMap[name.value])
    ensures r.(statusSrc := s.statusSrc, statusShown := s.statusShown) == s
  {
    match name
    case None => ClearStatusIcon(s)
    case Some(n) =>
      match GetIcon(reg, n)
      case Some(icon) => s.(statusSrc := Some(icon), statusShown := true)
      case None => ClearStatusIcon(s)
  }

  /** Plays the named animation if it is registered; a null or unregistered
      name leaves the surface exactly as it was. */
  function SetCenterGif(s: Surface, reg: Registry, name: CStr): (r: Surface)
    ensures name.Some? && name.value in reg.gifMap ==> r.gifSrc == Some(reg.gifMap[name.value])
    ensures !(name.Some? && name.value in reg.gifMap) ==> r == s
    ensures r.(gifSrc := s.gifSrc) == s
  {
    match name
    case None => s
    case Some(n) =>
      match GetGif(reg, n)
      case Some(gif) => s.(gifSrc := Some(gif))
      case None => s
  }

  /** Shows the named icon in the bottom area and hides the label. A null name
      hides both bottom widgets; an unregistered name changes nothing. */
  function SetBottomContent(s: Surface, reg: Registry, name: CStr): (r: Surface)
    ensures name.None? ==> !r.imageShown && !r.labelShown
    ensures name.Some? && name.value in reg.iconMap ==>
      r.imageShown && !r.labelShown && r.imageSrc == Some(reg.iconMap[name.value])
    ensures name.Some? && name.value !in reg.iconMap ==> r == s
    ensures BottomExclusive(s) ==> BottomExclusive(r)
    ensures r.statusSrc == s.statusSrc && r.statusShown == s.statusShown
    ensures r.gifSrc == s.gifSrc && r.labelText == s.labelText
  {
    match name
    case None => ClearBottomContent(s)
    case Some(n) =>
      match GetIcon(reg, n)
      case Some(icon) => s.(imageSrc := Some(icon), imageShown := true, labelShown := false)
      case None => s
  }

  /** Shows `text` in the bottom label and hides the image; a null text hides
      both bottom widgets. Needs no asset: any text is shown. */
  function SetBottomText(s: Surface, text: CStr): (r: Surface)
    ensures text.None? ==> !r.imageShown && !r.labelShown
    ensures text.Some? ==> r.labelShown && !r.imageShown && r.labelText == text
    ensures BottomExclusive(r)
    ensures r.statusSrc == s.statusSrc && r.statusShown == s.statusShown
    ensures r.gifSrc == s.gifSrc && r.imageSrc == s.imageSrc
  {
    match text
    case None => ClearBottomContent(s)
    case Some(t) => s.(labelText := Some(t), labelShown := true, imageShown := false)
  }
}

=== FILE: controller_properties.dfy ===
/** Properties of the display controller that relate several calls, or a call
    and the fixed tables it reads. */
module ControllerProperties {
  import opened CStrings
  import opened AcornAssets
  import AcornDisplay
  import opened DisplayController

  // ===== The tables =====

  /** `DeviceDisplayState` has exactly ten distinct values. */
  lemma TenDisplayStates(s: DisplayState)
    ensures |AllStates| == 10
    ensures forall i, j :: 0 <= i < j < |AllStates| ==> AllStates[i] != AllStates[j]
    ensures s in AllStates
  {
    StateListed(s);
  }

  /** Every display state has an entry in the state table (instantiates the
      table's own contract at one state). */
  lemma StateTableTotal(s: DisplayState)
    ensures s in StateTable()
  {
  }

  /** The emotion vocabulary and the display states correspond one to one:
      each state's name maps back to it, and each mapped name is its state's name. */
  lemma EmotionMappingBijective(s: DisplayState, e: string)
    ensures EmotionName(s) in EmotionMapping() && EmotionMapping()[EmotionName(s)] == s
    ensures e in EmotionMapping() ==> EmotionName(EmotionMapping()[e]) == e
  {
    EmotionMappingNamed(e);
  }

  /** Each mapped emotion name is the name of the state it maps to. */
  lemma EmotionMappingNamed(e: string)
    ensures e in EmotionMapping() ==> EmotionName(EmotionMapping()[e]) == e
  {
    if e !in ["idle", "listening", "thinking", "speaking", "volume_up", "volume_down",
              "wifi_connecting", "wifi_connected", "battery_low", "error"] {
      assert e !in EmotionMapping();
    }
  }

  /** An application state never leads to THINKING, a volume state,
      WIFI_CONNECTED or BATTERY_LOW: those are only reached through the display
      states themselves or emotions. */
  lemma AppStatesReachFiveStates(c: Controller, a: DeviceState, pick: nat)
    ensures SetAppState(c, a, pick).current in {Idle, Listening, Speaking, WifiConnecting, Error}
    ensures a.OtherDeviceState? ==> SetAppState(c, a, pick) == SetDeviceState(c, Idle, pick)
  {
  }

  // ===== State changes =====

  /** For a valid controller the IDLE fallback of `SetDeviceState` is never
      taken: a change of state applies exactly that state's own table entry. */
  lemma FallbackUnreachable(c: Controller, s: DisplayState, pick: nat)
    requires Valid(c)
    requires s != c.current
    ensures SetDeviceState(c, s, pick) ==
      ApplyDisplayConfig(c.(previous := c.current, current := s, timeoutTimer := Disarmed), StateTable()[s], pick)
  {
    StateTableTotal(s);
  }

  /** Applying a configuration never reads its `autoReturnToIdle` or `timeoutMs` fields. */
  lemma TimeoutFieldsUnread(c: Controller, config: DisplayConfig, pick: nat, autoReturn: bool, timeoutMs: int)
    ensures ApplyDisplayConfig(c, config, pick) ==
      ApplyDisplayConfig(c, config.(autoReturnToIdle := autoReturn, timeoutMs := timeoutMs), pick)
  {
  }

  /** `SetDeviceState` never starts a timer: afterwards the timeout timer is
      stopped or untouched (the latter only when the call was a no-op), and
      the overlay timer is untouched. */
  lemma SetDeviceStateNeverArms(c: Controller, s: DisplayState, pick: nat)
    ensures SetDeviceState(c, s, pick).timeoutTimer.Armed? ==> s == c.current && SetDeviceState(c, s, pick) == c
    ensures SetDeviceState(c, s, pick).overlayTimer == c.overlayTimer
  {
  }

  /** With random selection over several candidates every candidate can be
      the one shown: the environment's choice ranges over all of them. */
  lemma RandomGifReachesEvery(config: DisplayConfig, i: nat)
    requires config.randomGif && |config.gifNames| > 1
    requires i < |config.gifNames|
    ensures exists pick: nat :: GetCurrentGif(config, pick) == config.gifNames[i]
  {
    assert GetCurrentGif(config, i) == config.gifNames[i];
  }

  /** Overrides survive a change of state: a set status or bottom-icon override
      is still in force afterwards, and so is a bottom-text override unless
      the new state has a bottom icon of its own. */
  lemma OverridesAreSticky(c: Controller, s: DisplayState, pick: nat)
    requires Valid(c)
    requires s != c.current
    ensures c.statusOverride != "" ==> SetDeviceState(c, s, pick).statusOverride == c.statusOverride
    ensures c.bottomIconOverride != "" ==> SetDeviceState(c, s, pick).bottomIconOverride == c.bottomIconOverride
    ensures c.bottomTextOverride != "" && StateTable()[s].bottomContent.None? ==>
      SetDeviceState(c, s, pick).bottomTextOverride == c.bottomTextOverride
  {
    FallbackUnreachable(c, s, pick);
  }

  /** A status or bottom-icon override left empty is filled from the new
      state's table entry. */
  lemma TableFillsFreeOverrides(c: Controller, s: DisplayState, pick: nat)
    requires Valid(c)
    requires s != c.current
    ensures c.statusOverride == "" ==>
      SetDeviceState(c, s, pick).statusOverride == StateTable()[s].statusIcon.GetOr("")
    ensures c.bottomIconOverride == "" ==>
      SetDeviceState(c, s, pick).bottomIconOverride == StateTable()[s].bottomContent.GetOr("")
  {
    FallbackUnreachable(c, s, pick);
  }

  /** Entering ERROR always ends with a bottom-icon override and no bottom-text
      override, because the icon is applied after the text. Without an earlier
      icon override the icon is ERROR's own, and it is on screen. */
  lemma ErrorIconBeatsText(c: Controller, pick: nat)
    requires Valid(c)
    requires c.current != Error
    ensures SetDeviceState(c, Error, pick).bottomTextOverride == ""
    ensures SetDeviceState(c, Error, pick).bottomIconOverride != ""
    ensures c.bottomIconOverride == "" ==> SetDeviceState(c, Error, pick).bottomIconOverride == "bind_error"
    ensures c.bottomIconOverride == "" ==>
      SetDeviceState(c, Error, pick).surface.imageShown && !SetDeviceState(c, Error, pick).surface.labelShown
    ensures c.bottomIconOverride == "" ==>
      SetDeviceState(c, Error, pick).surface.imageSrc == Some(Descriptor("bind_error"))
  {
    FallbackUnreachable(c, Error, pick);
    StateTableTotal(Error);
    var config := StateTable()[Error];
    assert config.bottomContent == Some("bind_error");
    var moved := c.(previous := c.current, current := Error, timeoutTimer := Disarmed);
    assert CurrentBottomIcon(moved, config) != "";
    IconLookupIff("bind_error");
  }

  /** An empty resolved status icon is cleared: entering a state without a
      status icon, with no status override in force, hides the status icon. */
  lemma EmptyStatusClears(c: Controller, s: DisplayState, pick: nat)
    requires Valid(c)
    requires s != c.current
    requires c.statusOverride == ""
    requires ConfigFor(s).statusIcon.None?
    ensures !SetDeviceState(c, s, pick).surface.statusShown
    ensures !HasStatusOverride(SetDeviceState(c, s, pick))
  {
    FallbackUnreachable(c, s, pick);
  }

  // ===== Overlays, defaults and queries =====

  /** The default overlay duration starts no timer, and `ShowTemporary`'s
      default timeout starts the timeout timer for three seconds. */
  lemma DefaultArguments(c: Controller, name: CStr, gif: CStr)
    ensures SetStatusOverlay(c, name, DefaultOverlayDurationMs).overlayTimer == c.overlayTimer
    ensures SetBottomOverlay(c, name, DefaultOverlayDurationMs).overlayTimer == c.overlayTimer
    ensures ShowTemporary(c, gif, None, None, None, DefaultTemporaryTimeoutMs).timeoutTimer == Armed(3000)
  {
  }

  /** The bottom setters exclude each other: the later call decides which override remains. */
  lemma BottomSettersExclusive(c: Controller, text: string, icon: string)
    ensures var r := SetBottomIcon(SetBottomText(c, Some(text)), Some(icon));
      !HasBottomTextOverride(r) && r.bottomIconOverride == icon
    ensures var r := SetBottomText(SetBottomIcon(c, Some(icon)), Some(text));
      !HasBottomIconOverride(r) && r.bottomTextOverride == text
    ensures !HasBottomOverride(ClearBottomArea(c))
    ensures !HasBottomOverride(SetBottomText(c, None)) && !HasBottomOverride(SetBottomIcon(c, None))
  {
  }

  /** The override queries follow the setters, and no setter changes the state
      `GetCurrentState` reports. */
  lemma QueriesFollowSetters(c: Controller, name: string, text: string)
    ensures HasStatusOverride(SetStatusIcon(c, Some(name))) <==> name != ""
    ensures !HasStatusOverride(ClearStatusIcon(c))
    ensures HasBottomOverride(SetBottomText(c, Some(text))) <==> text != ""
    ensures HasBottomOverride(SetBottomIcon(c, Some(name))) <==> name != ""
    ensures HasVolumeOverride(SetStatusIcon(c, Some("volume_low")))
    ensures GetCurrentState(SetStatusIcon(c, Some(name))) == GetCurrentState(c)
    ensures GetCurrentState(SetBottomText(c, Some(text))) == GetCurrentState(c)
    ensures GetCurrentState(ClearAll(c)) == GetCurrentState(c)
  {
  }

  // ===== Scenarios =====

  /** The board's start-up: build the surface, construct the controller on
      fresh assets, then `ForceIdle`. Both state requests are no-ops, so no
      animation source is ever set and every region stays hidden. */
  function Startup(pick: nat): (c: Controller)
    ensures Valid(c)
    ensures c.current == Idle && c.previous == Idle
    ensures AcornDisplay.AllHidden(c.surface) && c.surface.gifSrc.None?
    ensures !HasStatusOverride(c) && !HasBottomOverride(c) && !HasGifOverride(c)
    ensures c.timeoutTimer == Disarmed && c.overlayTimer == Disarmed
  {
    ForceIdle(Construct(AcornDisplay.Layout(), Uninitialized(), pick), pick)
  }

  /** The constructor yields a valid controller whether or not the assets were
      already initialised. */
  lemma ConstructValid(display: AcornDisplay.Surface, assets: Registry, pick: nat)
    requires assets == Uninitialized() || assets == Initialized()
    requires AcornDisplay.BottomExclusive(display)
    ensures Valid(Construct(display, assets, pick))
  {
    InitializeIdempotent(Uninitialized());
  }

  /** Every entry of the state table is a registered configuration. */
  lemma TableConfigsRegistered(s: DisplayState)
    ensures s in StateTable() && ConfigRegistered(StateTable()[s])
  {
    StateTableTotal(s);
  }

  /** The screen a registered configuration puts up when no status or bottom
      override is in force. */
  predicate ShowsConfig(r: AcornDisplay.Surface, config: DisplayConfig, pick: nat) {
    && (r.statusShown <==> config.statusIcon.Some?)
    && (config.statusIcon.Some? ==> r.statusSrc == Some(Descriptor(config.statusIcon.value)))
    && r.gifSrc == Some(Descriptor(GetCurrentGif(config, pick)))
    && (config.bottomContent.Some? ==>
          r.imageShown && !r.labelShown && r.imageSrc == Some(Descriptor(config.bottomContent.value)))
    && (config.bottomContent.None? && config.bottomText.Some? ==>
          r.labelShown && !r.imageShown && r.labelText == config.bottomText)
    && (config.bottomContent.None? && config.bottomText.None? ==> !r.imageShown && !r.labelShown)
  }

  /** Applying a registered configuration with no status or bottom override
      in force shows exactly that configuration. */
  lemma CleanApplyShowsConfig(c: Controller, config: DisplayConfig, pick: nat)
    requires c.registry == Initialized()
    requires c.statusOverride == "" && c.bottomTextOverride == "" && c.bottomIconOverride == ""
    requires ConfigRegistered(config)
    ensures ShowsConfig(ApplyDisplayConfig(c, config, pick).surface, config, pick)
  {
    var gif := GetCurrentGif(config, pick);
    GifLookupIff(gif);
    if config.statusIcon.Some? {
      IconLookupIff(config.statusIcon.value);
    }
    if config.bottomContent.Some? {
      IconLookupIff(config.bottomContent.value);
    }
  }

  /** Entering a state with no status or bottom override in force shows
      exactly that state's table entry: its status icon or none, its
      animation, and its bottom icon, else its bottom text, else nothing. */
  lemma CleanEntryShowsConfig(c: Controller, s: DisplayState, pick: nat)
    requires Valid(c)
    requires s != c.current
    requires c.statusOverride == "" && c.bottomTextOverride == "" && c.bottomIconOverride == ""
    ensures s in StateTable()
    ensures ShowsConfig(SetDeviceState(c, s, pick).surface, StateTable()[s], pick)
  {
    FallbackUnreachable(c, s, pick);
    TableConfigsRegistered(s);
    CleanApplyShowsConfig(c.(previous := c.current, current := s, timeoutTimer := Disarmed), StateTable()[s], pick);
  }

  /** LISTENING's table entry. */
  lemma ListeningEntry()
    ensures Listening in StateTable()
    ensures StateTable()[Listening] ==
      DisplayConfig(["listen_start", "listen_loop"], Some("volume_high"), None, Some("正在聆听..."), false, 0, false)
  {
  }

  /** IDLE's table entry. */
  lemma IdleEntry()
    ensures Idle in StateTable()
    ensures StateTable()[Idle] ==
      DisplayConfig(["idle_1", "idle_2", "idle_blink"], None, None, None, true, 10000, true)
  {
  }

  /** `SetEmotion("listening")` after start-up: LISTENING, with its volume icon,
      its text, its first animation, and no timer. */
  lemma ListeningScenario(pick: nat)
    ensures var c := SetEmotion(Startup(pick), Some("listening"), pick);
      && c.current == Listening && c.previous == Idle
      && c.surface.statusShown && c.surface.statusSrc == Some(Descriptor("volume_high"))
      && c.surface.labelShown && c.surface.labelText == Some("正在聆听...")
      && !c.surface.imageShown
      && c.surface.gifSrc == Some(Descriptor("listen_start"))
      && c.timeoutTimer == Disarmed && c.overlayTimer == Disarmed
  {
    var s := Startup(pick);
    assert "listening" in EmotionMapping() && EmotionMapping()["listening"] == Listening;
    var c := SetEmotion(s, Some("listening"), pick);
    assert c == SetDeviceState(s, Listening, pick);
    CleanEntryShowsConfig(s, Listening, pick);
    ListeningEntry();
    var config := StateTable()[Listening];
    assert GetCurrentGif(config, pick) == "listen_start";
    assert ShowsConfig(c.surface, config, pick);
  }

  /** A registered status override is the status icon any application shows. */
  lemma StatusOverrideShown(c: Controller, config: DisplayConfig, pick: nat)
    requires c.registry == Initialized()
    requires c.statusOverride in IconNames
    ensures ApplyDisplayConfig(c, config, pick).surface.statusShown
    ensures ApplyDisplayConfig(c, config, pick).surface.statusSrc == Some(Descriptor(c.statusOverride))
  {
    IconLookupIff(c.statusOverride);
    assert c.statusOverride != "";
    assert CurrentStatusIcon(c, config) == c.statusOverride;
  }

  /** A bottom-text override is the bottom text any application shows when
      neither an icon override nor the configuration supplies a bottom icon. */
  lemma TextOverrideShown(c: Controller, config: DisplayConfig, pick: nat)
    requires c.bottomTextOverride != "" && c.bottomIconOverride == ""
    requires config.bottomContent.None?
    ensures ApplyDisplayConfig(c, config, pick).surface.labelShown
    ensures ApplyDisplayConfig(c, config, pick).surface.labelText == Some(c.bottomTextOverride)
  {
    assert CurrentBottomIcon(c, config) == "";
    assert CurrentBottomText(c, config) == c.bottomTextOverride;
  }

  /** Overrides stay on screen across a change of state: a registered status
      override is still the status icon shown, and a bottom-text override is
      still the bottom text shown unless the new state has a bottom icon. */
  lemma OverridesStayOnScreen(c: Controller, s: DisplayState, pick: nat)
    requires Valid(c)
    requires s != c.current
    ensures s in StateTable()
    ensures c.statusOverride in IconNames ==>
      SetDeviceState(c, s, pick).surface.statusShown
      && SetDeviceState(c, s, pick).surface.statusSrc == Some(Descriptor(c.statusOverride))
    ensures c.bottomTextOverride != "" && StateTable()[s].bottomContent.None? ==>
      SetDeviceState(c, s, pick).surface.labelShown
      && SetDeviceState(c, s, pick).surface.labelText == Some(c.bottomTextOverride)
  {
    FallbackUnreachable(c, s, pick);
    StateTableTotal(s);
    var moved := c.(previous := c.current, current := s, timeoutTimer := Disarmed);
    if c.statusOverride in IconNames {
      StatusOverrideShown(moved, StateTable()[s], pick);
    }
    if c.bottomTextOverride != "" && StateTable()[s].bottomContent.None? {
      TextOverrideShown(moved, StateTable()[s], pick);
    }
  }

  /** Going from IDLE to LISTENING and back to IDLE keeps LISTENING's icon and
      text on screen: they became overrides when LISTENING was applied, and
      IDLE configures neither region. */
  lemma ListeningLeaksIntoIdle(c: Controller, pick: nat)
    requires Valid(c) && c.current == Idle
    requires c.statusOverride == "" && c.bottomTextOverride == "" && c.bottomIconOverride == ""
    ensures var r := SetDeviceState(SetDeviceState(c, Listening, pick), Idle, pick);
      && r.current == Idle
      && r.statusOverride == "volume_high" && r.surface.statusShown
      && r.bottomTextOverride == "正在聆听..." && r.surface.labelShown
  {
    var l := SetDeviceState(c, Listening, pick);
    ListeningEntry();
    TableFillsFreeOverrides(c, Listening, pick);
    assert l.statusOverride == "volume_high";
    assert l.bottomTextOverride == "正在聆听...";
    assert Valid(l);
    IdleEntry();
    OverridesAreSticky(l, Idle, pick);
    assert "volume_high" in IconNames;
    OverridesStayOnScreen(l, Idle, pick);
  }

  /** A status overlay without a duration outlives every request for IDLE. */
  lemma StatusOverlayOutlivesIdle(pick: nat, again: nat)
    ensures var c := SetStatusOverlay(Startup(pick), Some("battery_low"), 0);
      && c.statusOverride == "battery_low" && c.surface.statusShown
      && c.overlayTimer == Disarmed
      && SetDeviceState(c, Idle, again) == c
  {
    IconLookupIff("battery_low");
  }

  // ===== Temporary screens =====

  /** A temporary screen is never undone. When its timeout fires the state is
      the one it was shown in, every override is gone, the status and bottom
      areas stay blank and the temporary animation stays on screen: no
      configuration is applied again and the previous state is not restored. */
  lemma TemporaryIsNeverUndone(c: Controller, gif: string, status: CStr, bottomContent: CStr,
                               bottomText: CStr, timeoutMs: int, pick: nat)
    requires Valid(c)
    requires gif in GifNames
    requires timeoutMs > 0
    ensures var t := ShowTemporary(c, Some(gif), status, bottomContent, bottomText, timeoutMs);
      && t.timeoutTimer.Armed?
      && var r := FireTimeout(t, pick);
      && r.current == c.current && r.previous == c.current
      && r.statusOverride == "" && r.gifOverride == ""
      && r.bottomTextOverride == "" && r.bottomIconOverride == ""
      && AcornDisplay.AllHidden(r.surface)
      && r.surface.gifSrc == Some(Descriptor(gif))
  {
    GifLookupIff(gif);
  }

  /** The timeout callback never reads the previous state: two controllers
      that differ only there come out of it differing only there. */
  lemma TimeoutIgnoresPrevious(c: Controller, p: DisplayState, pick: nat)
    requires c.timeoutTimer.Armed?
    ensures FireTimeout(c.(previous := p), pick) == FireTimeout(c, pick).(previous := p)
  {
  }
}

=== FILE: controller_runs.dfy ===
/** Runs of the display controller: any sequence of caller requests and timer
    firings, each one atomic. Properties proved here hold after every run
    from a valid controller, whatever the order of events. */
module ControllerRuns {
  import opened CStrings
  import AcornDisplay
  import opened DisplayController

  /** One atomic step: a public call of the controller, or a timer firing.
      `pick` is the environment's random choice for a random animation. */
  datatype Event =
    | SetState(state: DisplayState, pick: nat)
    | SetApp(app: DeviceState, pick: nat)
    | Emotion(emotion: CStr, pick: nat)
    | Temporary(gif: CStr, status: CStr, bottomContent: CStr, bottomText: CStr, timeoutMs: int)
    | Force(pick: nat)
    | StatusIcon(name: CStr)
    | GifAnimation(name: CStr)
    | BottomText(text: CStr)
    | BottomIcon(name: CStr)
    | ClearStatus
    | ClearBottom
    | ClearEverything
    | StatusOverlay(name: CStr, durationMs: int)
    | BottomOverlay(text: CStr, durationMs: int)
    | CustomDisplay(gif: CStr, status: CStr, text: CStr, icon: CStr)
    | TimeoutFires(pick: nat)
    | OverlayFires(pick: nat)

  /** A timer firing, the only events the environment starts on its own. */
  predicate IsFiring(e: Event) {
    e.TimeoutFires? || e.OverlayFires?
  }

  /** The controller after `e`. A stopped timer cannot fire, so its firing
      leaves the controller as it was. */
  function Step(c: Controller, e: Event): Controller {
    match e
    case SetState(s, pick) => SetDeviceState(c, s, pick)
    case SetApp(a, pick) => SetAppState(c, a, pick)
    case Emotion(name, pick) => SetEmotion(c, name, pick)
    case Temporary(gif, status, content, text, timeoutMs) => ShowTemporary(c, gif, status, content, text, timeoutMs)
    case Force(pick) => ForceIdle(c, pick)
    case StatusIcon(name) => SetStatusIcon(c, name)
    case GifAnimation(name) => SetGifAnimation(c, name)
    case BottomText(text) => SetBottomText(c, text)
    case BottomIcon(name) => SetBottomIcon(c, name)
    case ClearStatus => ClearStatusIcon(c)
    case ClearBottom => ClearBottomArea(c)
    case ClearEverything => ClearAll(c)
    case StatusOverlay(name, d) => SetStatusOverlay(c, name, d)
    case BottomOverlay(text, d) => SetBottomOverlay(c, text, d)
    case CustomDisplay(gif, status, text, icon) => SetCustomDisplay(c, gif, status, text, icon)
    case TimeoutFires(pick) => if c.timeoutTimer.Armed? then FireTimeout(c, pick) else c
    case OverlayFires(pick) => if c.overlayTimer.Armed? then FireOverlay(c, pick) else c
  }

  /** The controller after every event of `events`, in order. */
  function Run(c: Controller, events: seq<Event>): Controller
    decreases |events|
  {
    if |events| == 0 then c else Run(Step(c, events[0]), events[1..])
  }

  /** Every step keeps the controller valid: the tables and assets stay as
      built, the bottom overrides stay exclusive, and the bottom image and
      label are never both on screen. */
  lemma StepPreservesValid(c: Controller, e: Event)
    requires Valid(c)
    ensures Valid(Step(c, e))
  {
    match e
    case TimeoutFires(pick) => TimeoutStepPreservesValid(c, pick);
    case OverlayFires(pick) => OverlayStepPreservesValid(c, pick);
    case _ =>
      if IsRegionCall(e) {
        RegionCallPreservesValid(c, e);
      } else if IsStateChange(e) {
        StateChangePreservesValid(c, e);
      } else if e.CustomDisplay? {
        CustomDisplayPreservesValid(c, e);
      } else if e.StatusOverlay? {
        StatusOverlayPreservesValid(c, e);
      } else {
        BottomOverlayPreservesValid(c, e);
      }
  }

  /** A request that may move the state machine. */
  predicate IsStateChange(e: Event) {
    e.SetState? || e.SetApp? || e.Emotion? || e.Force? || e.Temporary?
  }

  /** A direct call on one screen region. */
  predicate IsRegionCall(e: Event) {
    e.StatusIcon? || e.GifAnimation? || e.BottomText? || e.BottomIcon?
      || e.ClearStatus? || e.ClearBottom? || e.ClearEverything?
  }

  /** The timeout timer firing, or finding its timer stopped, keeps the
      controller valid. */
  lemma TimeoutStepPreservesValid(c: Controller, pick: nat)
    requires Valid(c)
    ensures Valid(Step(c, TimeoutFires(pick)))
  {
  }

  /** The overlay timer firing, or finding its timer stopped, keeps the
      controller valid. */
  lemma OverlayStepPreservesValid(c: Controller, pick: nat)
    requires Valid(c)
    ensures Valid(Step(c, OverlayFires(pick)))
  {
  }

  /** State requests keep the controller valid. */
  lemma StateChangePreservesValid(c: Controller, e: Event)
    requires Valid(c)
    requires IsStateChange(e)
    ensures Valid(Step(c, e))
  {
  }

  /** Direct region calls keep the controller valid. */
  lemma RegionCallPreservesValid(c: Controller, e: Event)
    requires Valid(c)
    requires IsRegionCall(e)
    ensures Valid(Step(c, e))
  {
  }

  /** A status overlay keeps the controller valid. */
  lemma StatusOverlayPreservesValid(c: Controller, e: Event)
    requires Valid(c)
    requires e.StatusOverlay?
    ensures Valid(Step(c, e))
  {
  }

  /** A bottom overlay keeps the controller valid. */
  lemma BottomOverlayPreservesValid(c: Controller, e: Event)
    requires Valid(c)
    requires e.BottomOverlay?
    ensures Valid(Step(c, e))
  {
  }

  /** A custom screen keeps the controller valid. */
  lemma CustomDisplayPreservesValid(c: Controller, e: Event)
    requires Valid(c)
    requires e.CustomDisplay?
    ensures Valid(Step(c, e))
  {
  }

  /** Every run keeps the controller valid. */
  lemma {:induction false} RunPreservesValid(c: Controller, events: seq<Event>)
    requires Valid(c)
    ensures Valid(Run(c, events))
    decreases |events|
  {
    if |events| > 0 {
      StepPreservesValid(c, events[0]);
      RunPreservesValid(Step(c, events[0]), events[1..]);
    }
  }

  /** A timer firing never changes the display state. */
  lemma FiringKeepsState(c: Controller, e: Event)
    requires IsFiring(e)
    ensures Step(c, e).current == c.current && Step(c, e).previous == c.previous
  {
  }

  /** However many timer firings happen, the display state stays where it was:
      no state, THINKING or IDLE included, ever returns to IDLE by itself. */
  lemma {:induction false} FiringsKeepState(c: Controller, events: seq<Event>)
    requires forall i :: 0 <= i < |events| ==> IsFiring(events[i])
    ensures Run(c, events).current == c.current
    ensures Run(c, events).previous == c.previous
    decreases |events|
  {
    if |events| > 0 {
      FiringKeepsState(c, events[0]);
      FiringsKeepState(Step(c, events[0]), events[1..]);
    }
  }

  /** Only `ShowTemporary` starts the timeout timer, and only the two overlay
      calls start the overlay timer. */
  lemma OnlyExplicitCallsArm(c: Controller, e: Event)
    ensures Step(c, e).timeoutTimer.Armed? && Step(c, e).timeoutTimer != c.timeoutTimer ==> e.Temporary?
    ensures Step(c, e).overlayTimer.Armed? && Step(c, e).overlayTimer != c.overlayTimer ==>
      e.StatusOverlay? || e.BottomOverlay?
  {
  }

  /** A run without `ShowTemporary` or overlay calls never starts a timer: a
      stopped timer stays stopped. */
  lemma {:induction false} NoArmingWithoutExplicitCalls(c: Controller, events: seq<Event>)
    requires forall i :: 0 <= i < |events| ==>
      !events[i].Temporary? && !events[i].StatusOverlay? && !events[i].BottomOverlay?
    ensures c.timeoutTimer == Disarmed ==> Run(c, events).timeoutTimer == Disarmed
    ensures c.overlayTimer == Disarmed ==> Run(c, events).overlayTimer == Disarmed
    decreases |events|
  {
    if |events| > 0 {
      OnlyExplicitCallsArm(c, events[0]);
      NoArmingWithoutExplicitCalls(Step(c, events[0]), events[1..]);
    }
  }

  /** Entering THINKING stops the timeout timer, so with no later
      `ShowTemporary` or overlay call the controller stays in THINKING for
      good, although THINKING's table entry asks for a return to IDLE. */
  lemma {:induction false} ThinkingNeverReturnsToIdle(c: Controller, pick: nat, events: seq<Event>)
    requires c.current != Thinking
    requires forall i :: 0 <= i < |events| ==> IsFiring(events[i])
    ensures Run(SetDeviceState(c, Thinking, pick), events).current == Thinking
    ensures Run(SetDeviceState(c, Thinking, pick), events).timeoutTimer == Disarmed
  {
    var t := SetDeviceState(c, Thinking, pick);
    FiringsKeepState(t, events);
    NoArmingWithoutExplicitCalls(t, events);
  }
}

=== FILE: cstrings.dfy ===
/** C-string arguments of the display firmware: pointers that may be null,
    and the controller's conversion of `std::string` values into them. */
module CStrings {

  /** A pointer argument: `None` is the null pointer, `Some(v)` points at `v`. */
  datatype Option<+T> = None | Some(value: T) {

    /** Returns the wrapped value, or `default` when there is none. */
    function GetOr(default: T): T {
      match this
      case Some(v) => v
      case None => default
    }
  }

  /** A `const char*` argument: `None` is the null pointer. */
  type CStr = Option<string>

  /** Passes a `std::string` on as a `const char*` the way the controller does:
      the empty string becomes the null pointer. */
  function NonEmpty(s: string): (p: CStr)
    ensures p.None? <==> s == ""
    ensures p.Some? ==> p.value == s
  {
    if s == "" then None else Some(s)
  }
}

=== FILE: display_controller.dfy ===
/** The Acorn display controller: a table from device display states to
    display configurations, four override strings layered over it, and two
    single-shot timers. Every operation is a pure transition from one
    controller value to the next; the display surface and the asset registry
    the controller drives are part of that value. */
module DisplayController {
  import opened CStrings
  import opened AcornAssets
  import AcornDisplay

  /** `DeviceDisplayState`: the ten display states. */
  datatype DisplayState =
    | Idle | Listening | Thinking | Speaking
    | VolumeUp | VolumeDown | WifiConnecting
    | WifiConnected | BatteryLow | Error

  /** Every display state, in declaration order. */
  const AllStates: seq<DisplayState> := [
    Idle, Listening, Thinking, Speaking, VolumeUp, VolumeDown,
    WifiConnecting, WifiConnected, BatteryLow, Error
  ]

  /** `AllStates` lists every display state. */
  lemma StateListed(s: DisplayState)
    ensures s in AllStates
  {
    match s
    case Idle => assert AllStates[0] == s;
    case Listening => assert AllStates[1] == s;
    case Thinking => assert AllStates[2] == s;
    case Speaking => assert AllStates[3] == s;
    case VolumeUp => assert AllStates[4] == s;
    case VolumeDown => assert AllStates[5] == s;
    case WifiConnecting => assert AllStates[6] == s;
    case WifiConnected => assert AllStates[7] == s;
    case BatteryLow => assert AllStates[8] == s;
    case Error => assert AllStates[9] == s;
  }

  /** The application's device states the controller maps onto display states.
      `OtherDeviceState` stands for every value the mapping does not name. */
  datatype DeviceState =
    | DeviceStateIdle | DeviceStateListening | DeviceStateSpeaking
    | DeviceStateConnecting | DeviceStateWifiConfiguring | DeviceStateStarting
    | DeviceStateUpgrading | DeviceStateActivating | DeviceStateAudioTesting
    | DeviceStateFatalError | OtherDeviceState

  /** What one display state shows. A `None` field is a null pointer in the table. */
  datatype DisplayConfig = DisplayConfig(
    gifNames: seq<string>,
    statusIcon: CStr,
    bottomContent: CStr,
    bottomText: CStr,
    autoReturnToIdle: bool,
    timeoutMs: int,
    randomGif: bool)

  /** A single-shot timer: stopped, or started with a duration in milliseconds. */
  datatype Timer = Disarmed | Armed(durationMs: int)

  /** The controller's fields. The four overrides are strings; the empty
      string means "no override". */
  datatype Controller = Controller(
    surface: AcornDisplay.Surface,
    registry: Registry,
    configs: map<DisplayState, DisplayConfig>,
    current: DisplayState,
    previous: DisplayState,
    timeoutTimer: Timer,
    overlayTimer: Timer,
    statusOverride: string,
    gifOverride: string,
    bottomTextOverride: string,
    bottomIconOverride: string)

  /** Default `timeout_ms` of `ShowTemporary`. */
  const DefaultTemporaryTimeoutMs: int := 3000
  /** Default `duration_ms` of `SetStatusOverlay` and `SetBottomOverlay`. */
  const DefaultOverlayDurationMs: int := 0

  // ===== Tables =====

  /** Every name `config` mentions is non-empty and registered, and it offers
      at least one animation. */
  predicate ConfigRegistered(config: DisplayConfig) {
    && (forall n :: n in config.gifNames ==> n in GifNames && n != "")
    && (config.statusIcon.Some? ==> config.statusIcon.value in IconNames && config.statusIcon.value != "")
    && (config.bottomContent.Some? ==> config.bottomContent.value in IconNames && config.bottomContent.value != "")
    && (config.bottomText.Some? ==> config.bottomText.value != "")
    && |config.gifNames| > 0
  }

  /** The configuration `SetupStateMapping` assigns to each display state:
      every one names only registered assets and offers an animation. */
  function ConfigFor(s: DisplayState): (config: DisplayConfig)
    ensures ConfigRegistered(config)
  {
    match s
    case Idle => DisplayConfig(["idle_1", "idle_2", "idle_blink"], None, None, None, true, 10000, true)
    case Listening => DisplayConfig(["listen_start", "listen_loop"], Some("volume_high"), None, Some("正在聆听..."), false, 0, false)
    case Thinking => DisplayConfig(["listen_end"], Some("network_loading"), None, Some("思考中..."), true, 10000, false)
    case Speaking => DisplayConfig(["talk_start", "talk_loop"], Some("volume_high"), None, None, false, 0, false)
    case VolumeUp => DisplayConfig(["touch_start"], Some("volume_high"), None, Some("音量+"), true, 2000, false)
    case VolumeDown => DisplayConfig(["touch_start"], Some("volume_low"), None, Some("音量-"), true, 2000, false)
    case WifiConnecting => DisplayConfig(["touch_loop"], Some("network_loading"), None, Some("连接WiFi..."), false, 0, false)
    case WifiConnected => DisplayConfig(["touch_end"], Some("wifi_connected"), None, Some("WiFi已连接"), true, 3000, false)
    case BatteryLow => DisplayConfig(["lowbat_start", "lowbat_loop", "lowbat_end"], Some("battery_low"), None, Some("电量不足"), true, 5000, false)
    case Error => DisplayConfig(["switch_off"], Some("bind_error"), Some("bind_error"), Some("出现错误"), true, 5000, false)
  }

  /** `SetupStateMapping`: the table `state_configs_`, one entry per display state. */
  function StateTable(): (t: map<DisplayState, DisplayConfig>)
    ensures t.Keys == set s | s in AllStates
    ensures forall s :: s in t ==> t[s] == ConfigFor(s)
    ensures forall s: DisplayState :: s in t && t[s] == ConfigFor(s)
  {
    assert forall s: DisplayState :: s in AllStates by {
      forall s: DisplayState ensures s in AllStates {
        StateListed(s);
      }
    }
    map s | s in AllStates :: ConfigFor(s)
  }

  /** `SetupEmotionMapping`: the emotion names callers may pass to `SetEmotion`,
      ten distinct names. */
  function EmotionMapping(): (m: map<string, DisplayState>)
    ensures |m| == 10
  {
    map[
      "idle" := Idle, "listening" := Listening, "thinking" := Thinking,
      "speaking" := Speaking, "volume_up" := VolumeUp, "volume_down" := VolumeDown,
      "wifi_connecting" := WifiConnecting, "wifi_connected" := WifiConnected,
      "battery_low" := BatteryLow, "error" := Error
    ]
  }

  /** The emotion name `SetupEmotionMapping` registers for each display state. */
  function EmotionName(s: DisplayState): (n: string)
    ensures n in EmotionMapping() && EmotionMapping()[n] == s
  {
    match s
    case Idle => "idle"
    case Listening => "listening"
    case Thinking => "thinking"
    case Speaking => "speaking"
    case VolumeUp => "volume_up"
    case VolumeDown => "volume_down"
    case WifiConnecting => "wifi_connecting"
    case WifiConnected => "wifi_connected"
    case BatteryLow => "battery_low"
    case Error => "error"
  }

  /** `SetupDeviceStateMapping`: application states with a display counterpart.
      Every named application state has one, and none of them leads to
      THINKING, a volume state, WIFI_CONNECTED or BATTERY_LOW. */
  function DeviceStateMapping(): (m: map<DeviceState, DisplayState>)
    ensures forall a :: a in m <==> !a.OtherDeviceState?
    ensures forall a :: a in m ==> m[a] in {Idle, Listening, Speaking, WifiConnecting, Error}
  {
    map[
      DeviceStateIdle := Idle,
      DeviceStateListening := Listening,
      DeviceStateSpeaking := Speaking,
      DeviceStateConnecting := WifiConnecting,
      DeviceStateWifiConfiguring := WifiConnecting,
      DeviceStateStarting := WifiConnecting,
      DeviceStateUpgrading := WifiConnecting,
      DeviceStateActivating := WifiConnecting,
      DeviceStateAudioTesting := Listening,
      DeviceStateFatalError := Error
    ]
  }

  // ===== Queries =====

  /** `GetCurrentState`. */
  function GetCurrentState(c: Controller): DisplayState {
    c.current
  }

  predicate HasStatusOverride(c: Controller) {
    c.statusOverride != ""
  }

  predicate HasGifOverride(c: Controller) {
    c.gifOverride != ""
  }

  predicate HasBottomTextOverride(c: Controller) {
    c.bottomTextOverride != ""
  }

  predicate HasBottomIconOverride(c: Controller) {
    c.bottomIconOverride != ""
  }

  predicate HasBottomOverride(c: Controller) {
    c.bottomTextOverride != "" || c.bottomIconOverride != ""
  }

  /** The status override is one of the three volume icons. */
  predicate HasVolumeOverride(c: Controller) {
    c.statusOverride == "volume_high" || c.statusOverride == "volume_low" || c.statusOverride == "volume_mute"
  }

  // ===== Invariants =====

  /** The bottom-text and bottom-icon overrides are never both set. */
  predicate OverridesExclusive(c: Controller) {
    c.bottomTextOverride == "" || c.bottomIconOverride == ""
  }

  /** What holds of every controller the constructor and the operations produce. */
  predicate Valid(c: Controller) {
    && c.configs == StateTable()
    && c.registry == Initialized()
    && OverridesExclusive(c)
    && AcornDisplay.BottomExclusive(c.surface)
  }

  /** The fields only the state machine itself changes are the same in `a` and `b`. */
  predicate SameCore(a: Controller, b: Controller) {
    && a.registry == b.registry
    && a.configs == b.configs
    && a.current == b.current
    && a.previous == b.previous
    && a.timeoutTimer == b.timeoutTimer
    && a.overlayTimer == b.overlayTimer
  }

  // ===== Content resolution =====

  /** The animation a configuration plays. With random selection and more than
      one candidate, the environment's `pick` chooses the candidate; otherwise
      the first candidate is used. The gif override is not consulted. */
  function GetCurrentGif(config: DisplayConfig, pick: nat): (g: string)
    ensures |config.gifNames| == 0 ==> g == ""
    ensures |config.gifNames| > 0 && (!config.randomGif || |config.gifNames| <= 1) ==> g == config.gifNames[0]
    ensures |config.gifNames| > 0 ==> g in config.gifNames
  {
    if |config.gifNames| == 0 then ""
    else if config.randomGif && |config.gifNames| > 1 then config.gifNames[pick % |config.gifNames|]
    else config.gifNames[0]
  }

  /** Override-over-base precedence for one region: a non-empty override wins,
      otherwise the configured value, or the empty string when it is null. */
  function Resolve(override: string, base: CStr): (v: string)
    ensures override != "" ==> v == override
    ensures override == "" ==> v == base.GetOr("")
    ensures v == "" <==> override == "" && (base.None? || base.value == "")
  {
    if override != "" then override
    else if base.Some? then base.value
    else ""
  }

  /** `GetCurrentStatusIcon`. */
  function CurrentStatusIcon(c: Controller, config: DisplayConfig): (v: string)
    ensures c.statusOverride != "" ==> v == c.statusOverride
    ensures c.statusOverride == "" ==> v == config.statusIcon.GetOr("")
  {
    Resolve(c.statusOverride, config.statusIcon)
  }

  /** `GetCurrentBottomText`. */
  function CurrentBottomText(c: Controller, config: DisplayConfig): (v: string)
    ensures c.bottomTextOverride != "" ==> v == c.bottomTextOverride
    ensures c.bottomTextOverride == "" ==> v == config.bottomText.GetOr("")
  {
    Resolve(c.bottomTextOverride, config.bottomText)
  }

  /** `GetCurrentBottomIcon`. */
  function CurrentBottomIcon(c: Controller, config: DisplayConfig): (v: string)
    ensures c.bottomIconOverride != "" ==> v == c.bottomIconOverride
    ensures c.bottomIconOverride == "" ==> v == config.bottomContent.GetOr("")
  {
    Resolve(c.bottomIconOverride, config.bottomContent)
  }

  // ===== Region setters and clearers =====

  /** Hides the status icon and drops the status override. */
  function ClearStatusIcon(c: Controller): (r: Controller)
    ensures r.statusOverride == "" && !r.surface.statusShown
    ensures SameCore(r, c)
    ensures r.gifOverride == c.gifOverride
    ensures r.bottomTextOverride == c.bottomTextOverride && r.bottomIconOverride == c.bottomIconOverride
    ensures r.surface.(statusShown := c.surface.statusShown) == c.surface
  {
    c.(surface := AcornDisplay.ClearStatusIcon(c.surface), statusOverride := "")
  }

  /** Hides the bottom area and drops both bottom overrides. */
  function ClearBottomArea(c: Controller): (r: Controller)
    ensures r.bottomTextOverride == "" && r.bottomIconOverride == ""
    ensures !r.surface.imageShown && !r.surface.labelShown
    ensures SameCore(r, c)
    ensures r.statusOverride == c.statusOverride && r.gifOverride == c.gifOverride
    ensures r.surface.(imageShown := c.surface.imageShown, labelShown := c.surface.labelShown) == c.surface
  {
    c.(surface := AcornDisplay.ClearBottomContent(c.surface), bottomTextOverride := "", bottomIconOverride := "")
  }

  /** Hides the status icon and the bottom area and drops all four overrides;
      the centre animation keeps playing. */
  function ClearAll(c: Controller): (r: Controller)
    ensures r.statusOverride == "" && r.gifOverride == ""
    ensures r.bottomTextOverride == "" && r.bottomIconOverride == ""
    ensures AcornDisplay.AllHidden(r.surface)
    ensures r.surface.gifSrc == c.surface.gifSrc
    ensures SameCore(r, c)
  {
    c.(surface := AcornDisplay.ClearAll(c.surface),
       statusOverride := "", gifOverride := "", bottomTextOverride := "", bottomIconOverride := "")
  }

  /** Shows a status icon and records it as the status override; null clears both. */
  function SetStatusIcon(c: Controller, name: CStr): (r: Controller)
    ensures name.None? ==> r.statusOverride == "" && !r.surface.statusShown
    ensures name.Some? ==> r.statusOverride == name.value
    ensures name.Some? ==> (r.surface.statusShown <==> name.value in c.registry.iconMap)
    ensures r.surface.statusShown ==> r.surface.statusSrc == Some(c.registry.iconMap[name.value])
    ensures SameCore(r, c)
    ensures r.gifOverride == c.gifOverride
    ensures r.bottomTextOverride == c.bottomTextOverride && r.bottomIconOverride == c.bottomIconOverride
    ensures r.surface.(statusSrc := c.surface.statusSrc, statusShown := c.surface.statusShown) == c.surface
  {
    match name
    case None => ClearStatusIcon(c)
    case Some(n) => c.(surface := AcornDisplay.SetStatusIcon(c.surface, c.registry, name), statusOverride := n)
  }

  /** Clears the status icon and the bottom area on screen, then plays the
      named animation and records it as the gif override. A null name only
      clears the screen; the overrides stay as they were. */
  function SetGifAnimation(c: Controller, name: CStr): (r: Controller)
    ensures AcornDisplay.AllHidden(r.surface)
    ensures name.Some? ==> r.gifOverride == name.value
    ensures name.None? ==> r.gifOverride == c.gifOverride
    ensures name.Some? && name.value in c.registry.gifMap ==> r.surface.gifSrc == Some(c.registry.gifMap[name.value])
    ensures !(name.Some? && name.value in c.registry.gifMap) ==> r.surface.gifSrc == c.surface.gifSrc
    ensures SameCore(r, c)
    ensures r.statusOverride == c.statusOverride
    ensures r.bottomTextOverride == c.bottomTextOverride && r.bottomIconOverride == c.bottomIconOverride
  {
    match name
    case None => c.(surface := AcornDisplay.ClearAll(c.surface))
    case Some(n) =>
      var cleared := AcornDisplay.ClearAll(c.surface);
      c.(surface := AcornDisplay.SetCenterGif(cleared, c.registry, name), gifOverride := n)
  }

  /** Shows bottom text and records it as the text override, dropping the icon
      override; null clears the whole bottom area. */
  function SetBottomText(c: Controller, text: CStr): (r: Controller)
    ensures text.None? ==> r.bottomTextOverride == "" && r.bottomIconOverride == ""
    ensures text.Some? ==> r.bottomTextOverride == text.value && r.bottomIconOverride == ""
    ensures text.None? ==> !r.surface.imageShown && !r.surface.labelShown
    ensures text.Some? ==> r.surface.labelShown && !r.surface.imageShown && r.surface.labelText == text
    ensures OverridesExclusive(r)
    ensures AcornDisplay.BottomExclusive(r.surface)
    ensures SameCore(r, c)
    ensures r.statusOverride == c.statusOverride && r.gifOverride == c.gifOverride
    ensures r.surface.statusShown == c.surface.statusShown && r.surface.statusSrc == c.surface.statusSrc
    ensures r.surface.gifSrc == c.surface.gifSrc
  {
    match text
    case None => ClearBottomArea(c)
    case Some(t) =>
      c.(surface := AcornDisplay.SetBottomText(c.surface, text), bottomTextOverride := t, bottomIconOverride := "")
  }

  /** Shows a bottom icon and records it as the icon override, dropping the
      text override; null clears the whole bottom area. An unregistered icon
      is still recorded, but the screen is left as it was. */
  function SetBottomIcon(c: Controller, name: CStr): (r: Controller)
    ensures name.None? ==> r.bottomTextOverride == "" && r.bottomIconOverride == ""
    ensures name.Some? ==> r.bottomIconOverride == name.value && r.bottomTextOverride == ""
    ensures name.None? ==> !r.surface.imageShown && !r.surface.labelShown
    ensures name.Some? && name.value in c.registry.iconMap ==> r.surface.imageShown && !r.surface.labelShown
    ensures name.Some? && name.value in c.registry.iconMap ==> r.surface.imageSrc == Some(c.registry.iconMap[name.value])
    ensures name.Some? && name.value !in c.registry.iconMap ==> r.surface == c.surface
    ensures OverridesExclusive(r)
    ensures AcornDisplay.BottomExclusive(c.surface) ==> AcornDisplay.BottomExclusive(r.surface)
    ensures SameCore(r, c)
    ensures r.statusOverride == c.statusOverride && r.gifOverride == c.gifOverride
    ensures r.surface.statusShown == c.surface.statusShown && r.surface.statusSrc == c.surface.statusSrc
    ensures r.surface.gifSrc == c.surface.gifSrc
  {
    match name
    case None => ClearBottomArea(c)
    case Some(n) =>
      c.(surface := AcornDisplay.SetBottomContent(c.surface, c.registry, name),
         bottomIconOverride := n, bottomTextOverride := "")
  }

  /** Sets each region whose argument is non-null, in the order animation,
      status, bottom text, bottom icon; a null argument leaves that region's
      override alone. When both bottom arguments are given the icon wins. */
  function SetCustomDisplay(c: Controller, gif: CStr, status: CStr, text: CStr, icon: CStr): (r: Controller)
    ensures gif.Some? ==> r.gifOverride == gif.value
    ensures gif.None? ==> r.gifOverride == c.gifOverride
    ensures status.Some? ==> r.statusOverride == status.value
    ensures status.None? ==> r.statusOverride == c.statusOverride
    ensures icon.Some? ==> r.bottomIconOverride == icon.value && r.bottomTextOverride == ""
    ensures icon.None? && text.Some? ==> r.bottomTextOverride == text.value && r.bottomIconOverride == ""
    ensures icon.None? && text.None? ==>
      r.bottomTextOverride == c.bottomTextOverride && r.bottomIconOverride == c.bottomIconOverride
    ensures OverridesExclusive(c) ==> OverridesExclusive(r)
    ensures AcornDisplay.BottomExclusive(c.surface) ==> AcornDisplay.BottomExclusive(r.surface)
    ensures SameCore(r, c)
    ensures gif.Some? && gif.value in c.registry.gifMap ==> r.surface.gifSrc == Some(c.registry.gifMap[gif.value])
    ensures status.Some? ==> (r.surface.statusShown <==> status.value in c.registry.iconMap)
    ensures status.Some? && r.surface.statusShown ==> r.surface.statusSrc == Some(c.registry.iconMap[status.value])
    ensures icon.None? && text.Some? ==>
      r.surface.labelShown && !r.surface.imageShown && r.surface.labelText == text
    ensures icon.Some? && icon.value in c.registry.iconMap ==>
      r.surface.imageShown && !r.surface.labelShown && r.surface.imageSrc == Some(c.registry.iconMap[icon.value])
    ensures icon.Some? && icon.value !in c.registry.iconMap && text.Some? ==>
      r.surface.labelShown && !r.surface.imageShown && r.surface.labelText == text
    ensures icon.None? && text.None? && gif.Some? ==> !r.surface.imageShown && !r.surface.labelShown
    ensures gif.None? ==> r.surface.gifSrc == c.surface.gifSrc
    ensures gif.None? && status.None? ==>
      r.surface.statusShown == c.surface.statusShown && r.surface.statusSrc == c.surface.statusSrc
    ensures gif.None? && text.None? && icon.None? ==>
      r.surface.imageShown == c.surface.imageShown && r.surface.labelShown == c.surface.labelShown
    ensures gif.Some? && status.None? ==> !r.surface.statusShown
  {
    var c1 := if gif.Some? then SetGifAnimation(c, gif) else c;
    var c2 := if status.Some? then SetStatusIcon(c1, status) else c1;
    var c3 := if text.Some? then SetBottomText(c2, text) else c2;
    if icon.Some? then SetBottomIcon(c3, icon) else c3
  }

  // ===== Applying a state =====

  /** `ApplyDisplayConfig`: resolves the four regions against the overrides and
      pushes them through the region setters, so that every non-empty resolved
      value becomes an override of its own. An empty resolved status icon is
      cleared explicitly. */
  function ApplyDisplayConfig(c: Controller, config: DisplayConfig, pick: nat): (r: Controller)
    ensures SameCore(r, c)
    ensures r.statusOverride == CurrentStatusIcon(c, config)
    ensures r.bottomIconOverride == CurrentBottomIcon(c, config)
    ensures r.bottomTextOverride ==
      (if CurrentBottomIcon(c, config) != "" then "" else CurrentBottomText(c, config))
    ensures GetCurrentGif(config, pick) != "" ==> r.gifOverride == GetCurrentGif(config, pick)
    ensures GetCurrentGif(config, pick) == "" ==> r.gifOverride == c.gifOverride
    ensures r.surface.statusShown <==>
      CurrentStatusIcon(c, config) != "" && CurrentStatusIcon(c, config) in c.registry.iconMap
    ensures OverridesExclusive(r)
    ensures AcornDisplay.BottomExclusive(c.surface) ==> AcornDisplay.BottomExclusive(r.surface)
    ensures r.surface.statusShown ==> r.surface.statusSrc == Some(c.registry.iconMap[CurrentStatusIcon(c, config)])
    ensures GetCurrentGif(config, pick) != "" && GetCurrentGif(config, pick) in c.registry.gifMap ==>
      r.surface.gifSrc == Some(c.registry.gifMap[GetCurrentGif(config, pick)])
    ensures CurrentBottomIcon(c, config) == "" && CurrentBottomText(c, config) != "" ==>
      r.surface.labelShown && !r.surface.imageShown && r.surface.labelText == Some(CurrentBottomText(c, config))
    ensures CurrentBottomIcon(c, config) != "" && CurrentBottomIcon(c, config) in c.registry.iconMap ==>
      r.surface.imageShown && !r.surface.labelShown
      && r.surface.imageSrc == Some(c.registry.iconMap[CurrentBottomIcon(c, config)])
    ensures CurrentBottomIcon(c, config) != "" && CurrentBottomIcon(c, config) !in c.registry.iconMap
            && CurrentBottomText(c, config) != "" ==>
      r.surface.labelShown && !r.surface.imageShown && r.surface.labelText == Some(CurrentBottomText(c, config))
    ensures CurrentBottomIcon(c, config) == "" && CurrentBottomText(c, config) == "" && GetCurrentGif(config, pick) != "" ==>
      !r.surface.imageShown && !r.surface.labelShown
  {
    var gif := GetCurrentGif(config, pick);
    var status := CurrentStatusIcon(c, config);
    var text := CurrentBottomText(c, config);
    var icon := CurrentBottomIcon(c, config);
    var shown := SetCustomDisplay(c, NonEmpty(gif), NonEmpty(status), NonEmpty(text), NonEmpty(icon));
    if status == "" then ClearStatusIcon(shown) else shown
  }

  /** `SetDeviceState(DeviceDisplayState)`. Asking for the current state changes
      nothing at all. Otherwise the old state becomes the previous one, the
      timeout timer is stopped, and the new state's configuration (or, were it
      missing, Idle's) is applied. It never starts a timer. */
  function SetDeviceState(c: Controller, s: DisplayState, pick: nat): (r: Controller)
    ensures s == c.current ==> r == c
    ensures s != c.current ==> r.current == s && r.previous == c.current && r.timeoutTimer == Disarmed
    ensures r.current == s
    ensures r.overlayTimer == c.overlayTimer
    ensures r.registry == c.registry && r.configs == c.configs
    ensures OverridesExclusive(c) ==> OverridesExclusive(r)
    ensures AcornDisplay.BottomExclusive(c.surface) ==> AcornDisplay.BottomExclusive(r.surface)
  {
    if s == c.current then c
    else
      var moved := c.(previous := c.current, current := s, timeoutTimer := Disarmed);
      if s in c.configs then ApplyDisplayConfig(moved, c.configs[s], pick)
      else if Idle in c.configs then ApplyDisplayConfig(moved, c.configs[Idle], pick)
      else moved
  }

  /** `SetDeviceState(DeviceState)`: maps an application state onto a display
      state; an unmapped one falls back to Idle. */
  function SetAppState(c: Controller, s: DeviceState, pick: nat): (r: Controller)
    ensures s in DeviceStateMapping() ==> r == SetDeviceState(c, DeviceStateMapping()[s], pick)
    ensures s !in DeviceStateMapping() ==> r == SetDeviceState(c, Idle, pick)
  {
    if s in DeviceStateMapping() then SetDeviceState(c, DeviceStateMapping()[s], pick)
    else SetDeviceState(c, Idle, pick)
  }

  /** `SetEmotion`: maps an emotion name onto a display state; a null or
      unknown name falls back to Idle. */
  function SetEmotion(c: Controller, emotion: CStr, pick: nat): (r: Controller)
    ensures emotion.Some? && emotion.value in EmotionMapping() ==>
      r == SetDeviceState(c, EmotionMapping()[emotion.value], pick)
    ensures !(emotion.Some? && emotion.value in EmotionMapping()) ==> r == SetDeviceState(c, Idle, pick)
  {
    match emotion
    case None => SetDeviceState(c, Idle, pick)
    case Some(e) =>
      if e in EmotionMapping() then SetDeviceState(c, EmotionMapping()[e], pick)
      else SetDeviceState(c, Idle, pick)
  }

  /** `ForceIdle`: the guarded transition to Idle, so a no-op when already idle. */
  function ForceIdle(c: Controller, pick: nat): (r: Controller)
    ensures c.current == Idle ==> r == c
    ensures r.current == Idle
  {
    SetDeviceState(c, Idle, pick)
  }

  /** `ShowTemporary`: records the current state as the previous one without
      leaving it, sets each non-null region (animation, status, bottom icon,
      then bottom text, so text wins over icon), and starts the timeout timer
      when `timeoutMs` is positive. */
  function ShowTemporary(c: Controller, gif: CStr, status: CStr, bottomContent: CStr, bottomText: CStr,
                         timeoutMs: int): (r: Controller)
    ensures r.current == c.current && r.previous == c.current
    ensures timeoutMs > 0 ==> r.timeoutTimer == Armed(timeoutMs)
    ensures timeoutMs <= 0 ==> r.timeoutTimer == c.timeoutTimer
    ensures r.overlayTimer == c.overlayTimer
    ensures r.registry == c.registry && r.configs == c.configs
    ensures gif.Some? ==> r.gifOverride == gif.value
    ensures gif.None? ==> r.gifOverride == c.gifOverride
    ensures status.Some? ==> r.statusOverride == status.value
    ensures status.None? ==> r.statusOverride == c.statusOverride
    ensures bottomText.Some? ==> r.bottomTextOverride == bottomText.value && r.bottomIconOverride == ""
    ensures bottomText.None? && bottomContent.Some? ==>
      r.bottomIconOverride == bottomContent.value && r.bottomTextOverride == ""
    ensures bottomText.None? && bottomContent.None? ==>
      r.bottomTextOverride == c.bottomTextOverride && r.bottomIconOverride == c.bottomIconOverride
    ensures gif.Some? && gif.value in c.registry.gifMap ==> r.surface.gifSrc == Some(c.registry.gifMap[gif.value])
    ensures !(gif.Some? && gif.value in c.registry.gifMap) ==> r.surface.gifSrc == c.surface.gifSrc
    ensures status.Some? ==> (r.surface.statusShown <==> status.value in c.registry.iconMap)
    ensures status.Some? && status.value in c.registry.iconMap ==>
      r.surface.statusSrc == Some(c.registry.iconMap[status.value])
    ensures gif.None? && status.None? ==>
      r.surface.statusShown == c.surface.statusShown && r.surface.statusSrc == c.surface.statusSrc
    ensures gif.None? && bottomContent.None? && bottomText.None? ==>
      r.surface.imageShown == c.surface.imageShown && r.surface.labelShown == c.surface.labelShown
    ensures gif.Some? && status.None? ==> !r.surface.statusShown
    ensures gif.None? && status.None? && bottomContent.None? && bottomText.None? ==> r.surface == c.surface
    ensures gif.Some? && status.None? && bottomContent.None? && bottomText.None? ==> AcornDisplay.AllHidden(r.surface)
    ensures bottomText.Some? ==> r.surface.labelShown && !r.surface.imageShown && r.surface.labelText == bottomText
    ensures bottomText.None? && bottomContent.Some? && bottomContent.value in c.registry.iconMap ==>
      r.surface.imageShown && !r.surface.labelShown && r.surface.imageSrc == Some(c.registry.iconMap[bottomContent.value])
    ensures OverridesExclusive(c) ==> OverridesExclusive(r)
    ensures AcornDisplay.BottomExclusive(c.surface) ==> AcornDisplay.BottomExclusive(r.surface)
  {
    var c0 := c.(previous := c.current);
    var c1 := if gif.Some? then SetGifAnimation(c0, gif) else c0;
    var c2 := if status.Some? then SetStatusIcon(c1, status) else c1;
    var c3 := if bottomContent.Some? then SetBottomIcon(c2, bottomContent) else c2;
    var c4 := if bottomText.Some? then SetBottomText(c3, bottomText) else c3;
    if timeoutMs > 0 then c4.(timeoutTimer := Armed(timeoutMs)) else c4
  }

  /** `SetStatusOverlay`: a null name is ignored; otherwise the icon is set as
      the status override and the overlay timer is started when `durationMs`
      is positive. */
  function SetStatusOverlay(c: Controller, name: CStr, durationMs: int): (r: Controller)
    ensures name.None? ==> r == c
    ensures name.Some? ==> r.statusOverride == name.value
    ensures name.Some? && durationMs > 0 ==> r.overlayTimer == Armed(durationMs)
    ensures name.None? || durationMs <= 0 ==> r.overlayTimer == c.overlayTimer
    ensures r.current == c.current && r.previous == c.previous && r.timeoutTimer == c.timeoutTimer
    ensures r.registry == c.registry && r.configs == c.configs
    ensures r.bottomTextOverride == c.bottomTextOverride && r.bottomIconOverride == c.bottomIconOverride
    ensures r.gifOverride == c.gifOverride
    ensures name.Some? ==> (r.surface.statusShown <==> name.value in c.registry.iconMap)
    ensures r.surface.statusShown && name.Some? ==> r.surface.statusSrc == Some(c.registry.iconMap[name.value])
    ensures r.surface.gifSrc == c.surface.gifSrc
    ensures r.surface.imageShown == c.surface.imageShown && r.surface.imageSrc == c.surface.imageSrc
    ensures r.surface.labelShown == c.surface.labelShown && r.surface.labelText == c.surface.labelText
    ensures AcornDisplay.BottomExclusive(c.surface) ==> AcornDisplay.BottomExclusive(r.surface)
  {
    match name
    case None => c
    case Some(_) =>
      var shown := SetStatusIcon(c, name);
      if durationMs > 0 then shown.(overlayTimer := Armed(durationMs)) else shown
  }

  /** `SetBottomOverlay`: a null text is ignored; otherwise the text is set as
      the bottom-text override and the overlay timer is started when
      `durationMs` is positive. */
  function SetBottomOverlay(c: Controller, text: CStr, durationMs: int): (r: Controller)
    ensures text.None? ==> r == c
    ensures text.Some? ==> r.bottomTextOverride == text.value && r.bottomIconOverride == ""
    ensures text.Some? && durationMs > 0 ==> r.overlayTimer == Armed(durationMs)
    ensures text.None? || durationMs <= 0 ==> r.overlayTimer == c.overlayTimer
    ensures r.current == c.current && r.previous == c.previous && r.timeoutTimer == c.timeoutTimer
    ensures r.registry == c.registry && r.configs == c.configs
    ensures r.statusOverride == c.statusOverride && r.gifOverride == c.gifOverride
    ensures OverridesExclusive(c) ==> OverridesExclusive(r)
    ensures AcornDisplay.BottomExclusive(r.surface) || r == c
    ensures text.Some? ==> r.surface.labelShown && !r.surface.imageShown && r.surface.labelText == text
    ensures r.surface.statusShown == c.surface.statusShown && r.surface.statusSrc == c.surface.statusSrc
    ensures r.surface.gifSrc == c.surface.gifSrc
  {
    match text
    case None => c
    case Some(_) =>
      var shown := SetBottomText(c, text);
      if durationMs > 0 then shown.(overlayTimer := Armed(durationMs)) else shown
  }

  // ===== Timers =====

  /** The timeout timer fires: it stops, `TimeoutCallback` clears every
      override and the screen, and then asks for the current state again,
      which the equality guard turns into a no-op. */
  function FireTimeout(c: Controller, pick: nat): (r: Controller)
    requires c.timeoutTimer.Armed?
    ensures r.current == c.current && r.previous == c.previous
    ensures r.timeoutTimer == Disarmed && r.overlayTimer == c.overlayTimer
    ensures r.statusOverride == "" && r.gifOverride == ""
    ensures r.bottomTextOverride == "" && r.bottomIconOverride == ""
    ensures AcornDisplay.AllHidden(r.surface) && r.surface.gifSrc == c.surface.gifSrc
    ensures r.registry == c.registry && r.configs == c.configs
  {
    var stopped := c.(timeoutTimer := Disarmed);
    var cleared := ClearAll(stopped);
    SetDeviceState(cleared, cleared.current, pick)
  }

  /** The overlay timer fires: it stops, `OverlayTimeoutCallback` clears the
      status and bottom overrides (the gif override survives), and then asks
      for the current state again, a no-op. */
  function FireOverlay(c: Controller, pick: nat): (r: Controller)
    requires c.overlayTimer.Armed?
    ensures r.current == c.current && r.previous == c.previous
    ensures r.overlayTimer == Disarmed && r.timeoutTimer == c.timeoutTimer
    ensures r.statusOverride == "" && r.gifOverride == c.gifOverride
    ensures r.bottomTextOverride == "" && r.bottomIconOverride == ""
    ensures AcornDisplay.AllHidden(r.surface) && r.surface.gifSrc == c.surface.gifSrc
    ensures r.registry == c.registry && r.configs == c.configs
  {
    var stopped := c.(overlayTimer := Disarmed);
    var cleared := ClearBottomArea(ClearStatusIcon(stopped));
    SetDeviceState(cleared, cleared.current, pick)
  }

  // ===== Construction =====

  /** The constructor: initialise the assets, build the tables, start in Idle
      with both timers stopped and no overrides, then ask for Idle, which the
      equality guard turns into a no-op. `display` is the surface the board built. */
  function Construct(display: AcornDisplay.Surface, assets: Registry, pick: nat): (c: Controller)
    ensures c.current == Idle && c.previous == Idle
    ensures c.timeoutTimer == Disarmed && c.overlayTimer == Disarmed
    ensures c.statusOverride == "" && c.gifOverride == ""
    ensures c.bottomTextOverride == "" && c.bottomIconOverride == ""
    ensures c.surface == display
    ensures c.registry == InitializeAssets(assets) && c.configs == StateTable()
  {
    var initial := Controller(display, InitializeAssets(assets), StateTable(), Idle, Idle,
                            Disarmed, Disarmed, "", "", "", "");
    SetDeviceState(initial, Idle, pick)
  }
}
